=== FILE: README.md ===
# Ernie-2API gateway core, modelled in Dafny

Ernie-2API is a local gateway. It accepts OpenAI-style chat-completion requests and forwards each one to the Baidu ERNIE web chat endpoint, signed with one account's cookie, access token and sign. It translates the upstream's Server-Sent-Events line stream into OpenAI `chat.completion.chunk` frames, ending with `data: [DONE]`.

This project models the following parts in Dafny:

- the provider's request preparation: headers, payload and the model alias table;
- the error wrapping around it;
- the streaming generator: the line-by-line translator and the frames it yields;
- the gateway's bearer-key check and its model listing.

## Modules

- `Wrappers`: `Option` and `Result`.
- `Seqs`: generic facts about concatenating and slicing sequences.
- `Text`: the pieces of Python's string behaviour the core relies on:
  - `str.isspace` whitespace;
  - `strip`, `lstrip` and `rstrip`;
  - `startswith` and slicing;
  - `split()` with no argument;
  - `lower()` as far as comparing with `"bearer"` goes;
  - `str(n)`.
- `JsonText`: the JSON string escaping that `json.dumps(..., ensure_ascii=False)` applies, and its inverse.
- `Config`: the settings record, with the account fields kept in a map from account number to credentials.
- `Chunks`: events, chunk records, the JSON text of a chunk and its `data: ...\n\n` frame.
- `Transducer`: the read loop of `_stream_generator`.
  - Each upstream line is classified: not data, blank, malformed JSON, fatal, no content, or a payload with text and end flag.
  - The loop is a fold of a one-line step over these classifications.
  - The step's state is `is_first_chunk` plus whether the loop has been left.
  - `Expected` is an independent reference description of the loop's output.
- `TransducerProps`: the properties of the read loop.
- `Stream`: the upstream exchange (unreachable, or a status with the lines delivered) and the whole sequence of frames, ending with the sentinel.
- `Request`: `_prepare_headers`, `_prepare_payload` and `MODEL_MAP`.
- `RequestProps`: the properties of request preparation.
- `Provider` and `ProviderProps`: `chat_completion` and `_handle_stream_task`, and the response a client finally gets.
- `Auth`: `verify_api_key`.
- `Models`: `list_models`.

Some behaviour comes from outside the core and enters as parameters:

- JSON parsing of a line's remainder is `parse: string -> Decoded`. The model fixes what happens to each of these outcomes of `json.loads` and of the two `.get` chains:
  - a `JSONDecodeError`;
  - any other error raised outside the inner `try`: a value or `data` member that is not an object, or a `RecursionError` on deeply nested JSON;
  - a missing `content`;
  - string `content`, with or without `is_end == 1`.
- The clock is `clock: nat -> nat`, giving the i-th reading of `int(time.time())`. The payload timestamp is a plain number `nowMs`.
- The random part of the chat identifier is a string `hex`.
- The upstream is a function from the prepared request to what the HTTP exchange delivers.

## Behaviour a client might not expect

- **Empty message list.** An OpenAI-style client might expect an empty message list to be answered like any other request. The code indexes `[-1]` into the list, so an empty list raises `IndexError`. The client receives a 500 with "list index out of range". The placeholder greeting "你好" is used only when the `messages` key or the last message's `content` key is missing. See `Request.LastMessageText`, `Request.PreparePayload` and `RequestProps.GreetingOnlyForMissingKeys`.
- **End flag without content.** A payload whose `content` is the empty string and whose `is_end` is set yields the terminator alone (`TransducerProps.EmptyEndStopsOnly`). A payload with no `content` at all is skipped before its end flag is looked at, so the stream goes on reading (`TransducerProps.MissingContentIsIgnored`).
- **Event counts.** An OpenAI-style client expects exactly one role chunk and exactly one `stop` chunk per stream. The code emits no role chunk unless some payload carries non-empty text, and no `stop` chunk unless a payload with `content` present is flagged `is_end`. A lone `{"data": {"content": "", "is_end": 1}}` therefore yields a `stop` chunk with no role chunk before it. What holds is "at most one of each, in this order" (`TransducerProps.TranslateOrdering`).

## Model

| member | source | states |
|---|---|---|
| Text.LStrip | app/providers/baidu_provider.py:75 | the result is a suffix of the input that does not start with whitespace |
| Text.RStrip | app/providers/baidu_provider.py:75 | the result is a prefix of the input that does not end with whitespace |
| Text.RStripRemovesSpace | app/providers/baidu_provider.py:75 | everything `rstrip` removes is whitespace |
| Text.LStripRemovesSpace | app/providers/baidu_provider.py:75 | everything `lstrip` removes is whitespace |
| Text.IsSpace | main.py:86 | Python's `str.isspace` on one character, the test behind `strip` and `split()`: tab, line feed, vertical tab, form feed, carriage return (U+0009-U+000D), the separators U+001C-U+001F, space, U+0085, U+00A0, U+1680, U+2000-U+200A, U+2028, U+2029, U+202F, U+205F and U+3000, and nothing else |
| Text.Strip | app/providers/baidu_provider.py:75 | `strip` never lengthens the line, and neither end of its result is whitespace |
| Text.StripOfNonSpaceStart | app/providers/baidu_provider.py:72-75 | on a line that starts with a non-space character, `strip` trims only the right end and leaves something |
| Text.PrefixSurvivesRStrip | app/providers/baidu_provider.py:72-75 | a prefix ending in a non-space character survives right-stripping |
| Text.Split | main.py:87 | `split()` as a function; what it means is stated by `Text.SplitYieldsWords` (tokens are words) and `Text.SplitJoinWords` (it inverts joining with single spaces) |
| Text.SplitYieldsWords | main.py:87 | every token `split()` yields is non-empty and contains no whitespace |
| Text.SplitOfWord | main.py:87 | a leading word followed by whitespace or nothing is the first token |
| Text.SplitJoinWords | main.py:87 | `split()` gives back any list of words joined with single spaces |
| Text.Decimal | app/providers/baidu_provider.py:134 | `str(n)` is non-empty, all digits and has no leading zero |
| Text.DecimalRoundTrip | app/providers/baidu_provider.py:134 | reading the digits of `str(n)` gives back `n` |
| JsonText.HexDigit | app/providers/baidu_provider.py:95 | a digit is written in lower case, `0`-`9` or `a`-`f`, and reads back as its value |
| JsonText.Escape | app/providers/baidu_provider.py:104 | the escaped text of a string contains no control character |
| JsonText.Unescape | app/providers/baidu_provider.py:80 | decoding of a JSON string body as `json.loads` performs it; its link to the encoder is `JsonText.EscapeRoundTrip` |
| JsonText.EscapeRoundTrip | app/providers/baidu_provider.py:104 | unescaping the escaped text of any string gives the string back |
| JsonText.EscapeKeepsPlainText | app/providers/baidu_provider.py:104 | text with no quote, backslash or control character is emitted unchanged, non-ASCII included |
| Chunks.ChunkOf | app/providers/baidu_provider.py:91-111 | a chunk carries the stream's id, model and time, and a client reads back exactly the event it was built from |
| Chunks.ChunkJson | app/providers/baidu_provider.py:91-112 | the serialised chunk text opens with `{` and closes with `}` |
| Chunks.EventOf | app/providers/baidu_provider.py:91-111 | how a client reads a chunk back as an event; `Chunks.ChunkOf` and `Chunks.EventOfInvertsChunkOf` make the two mutually inverse |
| Chunks.EventOfInvertsChunkOf | app/providers/baidu_provider.py:91-111 | any chunk that reads as an event is exactly the chunk built from that event with its own id, model and time |
| Chunks.Frame | app/providers/baidu_provider.py:95-112 | a chunk frame starts `data: {`, ends with a blank line and is never the sentinel |
| Chunks.Enveloped | app/providers/baidu_provider.py:95-125 | any object framed as `data: <json>\n\n` differs from the `[DONE]` sentinel |
| Transducer.Remainder | app/providers/baidu_provider.py:75 | `line.strip()[len('data:'):]`; `TransducerProps.RemainderOfDataLine` shows that on a tagged line the tag followed by the remainder is the line with trailing whitespace removed |
| Transducer.Classify | app/providers/baidu_provider.py:72-87 | a line counts as data exactly when it starts with `data:`; for a tagged line with a non-empty remainder, a remainder that is not JSON is malformed, a remainder whose parsing or `.get` chains raise any other error is fatal, an object carrying `content` is a payload with exactly that text and end flag, and an object without `content` is ignored whatever its end flag; a payload verdict always carries what the parser found; `TransducerProps.BlankIffBareTag`, `TransducerProps.MalformedLineIsInvisible`, `TransducerProps.MissingContentIsIgnored` and `TransducerProps.NonObjectEndsStream` give what these verdicts do to the output |
| Transducer.Step | app/providers/baidu_provider.py:86-113 | one line leaves the loop exactly when it is fatal or an `is_end` payload; a skipped line changes neither state nor output; once text has been announced the first-chunk flag never comes back |
| Transducer.Run | app/providers/baidu_provider.py:71-113 | the read loop as a fold; its meaning is stated by `TransducerProps.RunAppend`, `TransducerProps.RunShape` and `TransducerProps.StoppedIgnoresRest` |
| Transducer.Translate | app/providers/baidu_provider.py:62-113 | the events for the lines of one response; `TransducerProps.TranslateIsExpected` equates it with the reference description |
| TransducerProps.RemainderOfDataLine | app/providers/baidu_provider.py:72-75 | for a data line, the tag followed by the remainder is the right-trimmed line |
| TransducerProps.RemainderOfTrimmedLine | app/providers/baidu_provider.py:72-75 | on a data line that ends in a non-space character, the remainder is everything after the tag |
| TransducerProps.BlankIffBareTag | app/providers/baidu_provider.py:72-77 | a line is discarded as blank exactly when it is the tag followed only by whitespace |
| TransducerProps.ClassifiedAppend | app/providers/baidu_provider.py:71-87 | classifying lines is done line by line, independent of neighbours |
| TransducerProps.RunAppend | app/providers/baidu_provider.py:71-113 | the read loop over two batches of lines is the loop over the first, continued from its state over the second |
| TransducerProps.RunSkips | app/providers/baidu_provider.py:72-117 | a non-data, blank, malformed or content-less line changes neither state nor output |
| TransducerProps.SkippedLineIsInvisible | app/providers/baidu_provider.py:72-117 | removing such a line anywhere in the stream leaves the output unchanged |
| TransducerProps.StoppedIgnoresRest | app/providers/baidu_provider.py:113-119 | once the loop is left, later lines contribute nothing |
| TransducerProps.RunEndsAt | app/providers/baidu_provider.py:107-119 | a fatal line or a payload flagged `is_end` leaves the loop |
| TransducerProps.EndingLineStopsReading | app/providers/baidu_provider.py:107-119 | the lines after an ending line never affect the output |
| TransducerProps.RunShape | app/providers/baidu_provider.py:64-113 | the loop's output from any `is_first_chunk` value equals a reference description |
| TransducerProps.TranslateIsExpected | app/providers/baidu_provider.py:62-113 | the events equal: a role announcement if any non-empty fragment arrives, the non-empty fragments in order up to the first ending line, and a terminator exactly when that line is an `is_end` payload |
| TransducerProps.FragmentsNonEmpty | app/providers/baidu_provider.py:99 | every fragment forwarded is non-empty |
| TransducerProps.ContentsAt | app/providers/baidu_provider.py:99-104 | the i-th content event carries the i-th fragment |
| TransducerProps.TranslateOrdering | app/providers/baidu_provider.py:64-113 | the role announcement comes only first, every content event follows it with non-empty text, and the terminator comes only last |
| TransducerProps.ContentThenStop | app/providers/baidu_provider.py:99-113 | a payload with text and the end flag yields its content and then the terminator, in that order, and nothing after |
| TransducerProps.EmptyEndStopsOnly | app/providers/baidu_provider.py:86-113 | a payload with empty text and the end flag yields only the terminator |
| TransducerProps.MissingContentIsIgnored | app/providers/baidu_provider.py:83-87 | a payload without `content`, with or without the end flag, is skipped: the output equals the output without that line |
| TransducerProps.MalformedLineIsInvisible | app/providers/baidu_provider.py:79-117 | a tagged line whose remainder is not JSON is logged and skipped: the output equals the output without that line |
| TransducerProps.NonObjectEndsStream | app/providers/baidu_provider.py:83-120 | a tagged line whose remainder is JSON but not an object with an object `data` ends the stream: the output equals the output of the lines before it, with no terminator added and every later line ignored |
| TransducerProps.TaggedPayload | app/providers/baidu_provider.py:72-87 | a `data:` line carrying an object with content is classified as that payload |
| TransducerProps.ClassifiedPair | app/providers/baidu_provider.py:71-87 | two such lines are classified as their two payloads |
| TransducerProps.RunPair | app/providers/baidu_provider.py:90-113 | a text payload then a final text payload yield role, both contents, then the terminator |
| TransducerProps.TwoPayloads | app/providers/baidu_provider.py:62-113 | two data lines with text, the second flagged `is_end`, translate to role, content, content, terminator |
| TransducerProps.TwoPayloadScenario | app/providers/baidu_provider.py:62-113 | the lines `{"data": {"content": "Hi", "is_end": 0}}` and `{"data": {"content": " there", "is_end": 1}}` give role, "Hi", " there", terminator |
| Stream.ChatId | app/providers/baidu_provider.py:63 | the identifier is `chatcmpl-` followed by the random hex, which can be read back from it |
| Stream.SuccessfulExchangeReadsLines | app/providers/baidu_provider.py:67-125 | for a 2xx response the frames before the sentinel are the framed chunks of the events translated from all its lines |
| Stream.StreamChunks | app/providers/baidu_provider.py:63-111 | one chunk per event, all with the same `chatcmpl-` id and echoed model, the i-th stamped with the i-th clock reading and announcing the i-th event |
| Stream.Body | app/providers/baidu_provider.py:119-125 | the generator's last frame is `data: [DONE]` and no earlier frame is |
| Stream.DoneExactlyOnce | app/providers/baidu_provider.py:123-125 | the sentinel occurs exactly once in every stream, whatever the upstream did |
| Stream.FailedExchangeYieldsOnlyDone | app/providers/baidu_provider.py:67-125 | an unreachable upstream or a non-2xx status yields the sentinel alone |
| Stream.CutOffEndsLikeClose | app/providers/baidu_provider.py:71-125 | a transport failure mid-stream ends the stream exactly as a normal close after the same lines |
| Stream.BodyCarriesEvents | app/providers/baidu_provider.py:91-125 | the frames before the sentinel are exactly the framed chunks of the translated events |
| Request.Describe | app/providers/baidu_provider.py:134-154 | the client-visible text of each error: "百度账号 N 的配置不完整。" for a missing account, "百度账号 N 的认证信息为空。" for an empty cookie or token, "百度账号 N 的 sign 未配置。" for a missing sign, "百度账号 N 的 sign 为空。" for an empty sign, with N the account number in decimal, and "list index out of range" for an empty message list |
| Request.PrepareHeaders | app/providers/baidu_provider.py:130-148 | succeeds exactly when the account exists with non-empty cookie and token; a missing account is "incomplete", otherwise "empty"; the headers carry the account's cookie and token and the fixed browser headers |
| Request.BackendModel | app/providers/baidu_provider.py:158 | a listed alias maps to its entry, any other to `EB45T`, and the result is always a table value |
| Request.Alias | app/providers/baidu_provider.py:53 | the requested `model`, or `ernie-4.5-turbo` when the key is absent; `Request.PreparePayload` and `Provider.Respond` use it both to pick the backend model and as the model name in every chunk |
| Request.LastMessageText | app/providers/baidu_provider.py:156 | fails exactly on an empty message list |
| Request.PreparePayload | app/providers/baidu_provider.py:150-171 | succeeds exactly when the account's sign exists and is non-empty and the message list is not empty; a missing sign is reported before an empty one; an empty list with a usable sign raises the index error; the payload carries the sign, the given timestamp, device type `pc`, the backend model the requested alias maps to, the last message's text, empty session fields and `isNewYiyan` set |
| RequestProps.OnlyLastMessageCounts | app/providers/baidu_provider.py:156 | earlier turns of the conversation never reach the upstream |
| RequestProps.GreetingOnlyForMissingKeys | app/providers/baidu_provider.py:156 | the greeting is used exactly when the `messages` key or the last message's `content` is missing, or the content is the greeting itself |
| RequestProps.AdvertisedAliasesAreMapped | app/core/config.py:22-25 | every alias the default configuration advertises has its own alias table entry |
| Provider.ChatCompletion | app/providers/baidu_provider.py:36-57 | replies with an error exactly when the account's credentials or sign are missing or empty, or the message list is empty; the error is a 500 `provider_error` whose message is the prefix plus the first error raised; otherwise it streams the prepared headers and payload to the fixed URL and echoes the requested alias |
| Provider.Respond | app/providers/baidu_provider.py:36-57 | the client gets a JSON reply with status 500 exactly when the account is incomplete or the message list is empty; otherwise an event stream that ends with the sentinel and is exactly the body produced from the upstream's answer to the prepared URL, headers and payload, under the requested alias |
| ProviderProps.ConfigErrorMakesNoUpstreamCall | app/providers/baidu_provider.py:36-52 | with incomplete credentials, the response is a 500 JSON error and does not depend on the upstream at all |
| ProviderProps.HeaderErrorsComeFirst | app/providers/baidu_provider.py:51-52 | an empty cookie is reported as empty credentials, whatever the sign and the messages |
| ProviderProps.DefaultsRefuseEveryChat | app/core/config.py:29-31 | with the default, empty credentials every chat request is refused |
| ProviderProps.ConfiguredRequestStreams | app/providers/baidu_provider.py:50-125 | a configured account and a non-empty message list always lead to the stream built from the upstream's answer to the prepared headers and payload; when that answer is 2xx, the client receives one framed chunk per event translated from its lines, under the requested alias, then the sentinel |
| Auth.VerifyApiKey | main.py:80-92 | no or empty master key admits everything; with a key set, a missing header is 401 "Missing Authorization header", a header that does not split into a `bearer` scheme (any case) and one token is 401 "Invalid authentication scheme", a well-formed header with another token is 403, and only the key itself is accepted |
| Auth.BearerKeyAccepted | main.py:84-92 | `Bearer <key>` is accepted for every whitespace-free key |
| Auth.KeyWithSpaceLocksOut | main.py:87-92 | a master key containing whitespace rejects every request, since no token can contain whitespace |
| Models.ListModels | main.py:108-119 | a `list` of one `model` record per configured alias, in order, owned by `system` and stamped with successive clock readings |

## Left out

- Networking is not modelled. This covers the httpx client, its 60-second timeout, the POST itself, and the chunked reading of lines. The exchange is a parameter: no response, or a status with the lines delivered and whether the transport failed afterwards.
- `json.loads` is a parameter (`parse`), because a JSON parser is outside the core. The model covers what the generator does with invalid JSON, a non-object value, a missing or `null` `content`, and a string `content`.
- `Transducer.Decoded`: a `content` that is present but not a string is not modelled. In the code a truthy one such as `5` or `["x"]` is forwarded as the content of a role chunk and a content chunk. A falsy one such as `0`, `false`, `[]` or `{}` behaves like `""`: no text, but the terminator still follows when `is_end` is set.
- `Chunks.ChunkJson`: only the outer braces of the JSON text are stated. The text is never parsed back into the chunk; only string escaping has a proved inverse (`JsonText.EscapeRoundTrip`).
- `uuid.uuid4()`, `time.time()` and the millisecond clock are parameters, because they are nondeterministic.
- Logging and `traceback.print_exc()` are left out; they do not change any response.
- The logging middleware (main.py:50-58) is left out, and it does change responses. It reads the body of every chat request before the key check and parses it as JSON, catching only JSON syntax errors. A body that is valid JSON but not an object makes `.get` fail, and a body that is not valid UTF-8 fails to decode. Either way the client gets a bare 500 before `verify_api_key` runs, so even a client without a key sees 500 rather than 401. The model's `Auth.VerifyApiKey` and `Provider.Respond` describe only requests whose body the middleware accepts.
- The FastAPI app, routing, CORS, the dependency mechanism and `HTTPException` rendering are left out. `chat_completions` in main.py reads the request body with `request.json()` and turns any exception into a 500. It is not modelled because the provider's own `try` already catches everything the modelled path raises.
- Client cancellation of the stream is left out. It is a concurrency concern of the server.
- Malformed inbound requests are not modelled: a non-object body, a non-list `messages`, a non-object message, or a `null`/non-string `content` or `model`. The request is a record whose fields are present or absent. Python would raise on these shapes or forward them as is.
- `JsonText.Unescape`: rejects `\u` escapes of surrogate code points, because a Dafny `char` cannot hold half of a surrogate pair. Surrogate pairs in incoming JSON are not modelled.
- `Text.AsciiLowerString`: lower-cases only ASCII letters, unlike Python's full Unicode `lower()`. Apart from `A`-`Z` and `a`-`z`, the only characters whose lower-case form contains an ASCII letter produce `i` or `k`, and neither occurs in `bearer`. So this does not change the outcome of the scheme comparison.
- The root route and the settings loading from the environment and `.env` (app/core/config.py) are not part of this model. The settings enter as a value.
- `Models.ListModels` reads the clock once per alias. The model does not relate successive readings to each other.

=== FILE: auth.dfy ===
/**
  `verify_api_key` in main.py: the bearer-token check in front of both API routes.
*/
module Auth {
  import opened Wrappers
  import opened Text

  /** `Open`: no master key is configured and the request passes unchecked. */
  datatype AuthOutcome = Open | Accepted | Rejected(status: nat, detail: string)

  const Scheme := "bearer"
  const MissingHeader := "Unauthorized: Missing Authorization header."
  const BadScheme := "Invalid authentication scheme. Use 'Bearer <your_api_key>'."
  const BadKey := "Forbidden: Invalid API Key."

  /** An Authorization header that splits into exactly a `bearer` scheme (any case) and a token. */
  predicate WellFormed(header: string) {
    var parts := Split(header);
    |parts| == 2 && LowerEquals(parts[0], Scheme)
  }

  /** The token of a well-formed header. */
  function Token(header: string): string
    requires WellFormed(header)
  {
    Split(header)[1]
  }

  function VerifyApiKey(masterKey: Option<string>, authorization: Option<string>): (r: AuthOutcome)
    ensures masterKey.None? || masterKey == Some("") ==> r == Open
    ensures r == Accepted <==>
      && masterKey.Some? && |masterKey.value| > 0
      && authorization.Some? && WellFormed(authorization.value)
      && Token(authorization.value) == masterKey.value
    ensures masterKey.Some? && |masterKey.value| > 0 ==> r != Open
    ensures masterKey.Some? && |masterKey.value| > 0 && authorization.None? ==>
      r == Rejected(401, MissingHeader)
    ensures masterKey.Some? && |masterKey.value| > 0 && authorization.Some? && !WellFormed(authorization.value) ==>
      r == Rejected(401, BadScheme)
    ensures masterKey.Some? && |masterKey.value| > 0 && authorization.Some? && WellFormed(authorization.value) ==>
      (Token(authorization.value) != masterKey.value ==> r == Rejected(403, BadKey))
  {
    if masterKey.None? || |masterKey.value| == 0 then Open
    else if authorization.None? then Rejected(401, MissingHeader)
    else
      var parts := Split(authorization.value);
      if |parts| != 2 || !LowerEquals(parts[0], Scheme) then Rejected(401, BadScheme)
      else if parts[1] != masterKey.value then Rejected(403, BadKey)
      else Accepted
  }

  /** A client that sends `Bearer <key>` is let in whenever the key is a single word. */
  lemma BearerKeyAccepted(key: string)
    requires IsWord(key)
    ensures VerifyApiKey(Some(key), Some("Bearer " + key)) == Accepted
  {
    var words := ["Bearer", key];
    assert IsWord("Bearer");
    SplitJoinWords(words);
    assert JoinWords(words) == "Bearer" + SpacedWords([key]);
    assert SpacedWords([key]) == " " + key + SpacedWords([]);
    assert "Bearer " + key == JoinWords(words);
  }

  /** Tokens never contain whitespace, so a master key that does locks every client out. */
  lemma KeyWithSpaceLocksOut(key: string, authorization: Option<string>)
    requires |key| > 0 && !NoSpace(key)
    ensures VerifyApiKey(Some(key), authorization).Rejected?
  {
    if authorization.Some? && WellFormed(authorization.value) {
      SplitYieldsWords(authorization.value);
    }
  }
}

=== FILE: chunks.dfy ===
/**
  The standardised output of the gateway: the three kinds of streamed event, the
  chat-completion chunk record each becomes, and the Server-Sent-Events frame that
  carries it.
*/
module Chunks {
  import Seqs
  import opened Wrappers
  import opened Text
  import JsonText

  /** A standardised streamed event, before it is stamped with identifier, time and model. */
  datatype Event = Role | Content(text: string) | Stop

  /** The `delta` object of a chunk's single choice. */
  datatype Delta = RoleDelta | ContentDelta(content: string) | EmptyDelta

  /** One `chat.completion.chunk` record. */
  datatype Chunk = Chunk(id: string, created: nat, model: string, delta: Delta, finishReason: Option<string>)

  const ChunkObject := "chat.completion.chunk"
  const AssistantRole := "assistant"
  const StopReason := "stop"

  /** The wire-level end-of-stream sentinel; it is never JSON. */
  const DoneFrame := "data: [DONE]\n\n"

  /** Stamps an event with the stream's identifier and model and the given second. */
  function ChunkOf(id: string, model: string, created: nat, e: Event): (c: Chunk)
    ensures c.id == id && c.model == model && c.created == created
    ensures EventOf(c) == Some(e)
  {
    match e
    case Role => Chunk(id, created, model, RoleDelta, None)
    case Content(t) => Chunk(id, created, model, ContentDelta(t), None)
    case Stop => Chunk(id, created, model, EmptyDelta, Some(StopReason))
  }

  /** What a client reads a chunk as: the event it announces, if it has one of the three shapes. */
  function EventOf(c: Chunk): Option<Event> {
    match (c.delta, c.finishReason)
    case (RoleDelta, None) => Some(Role)
    case (ContentDelta(t), None) => Some(Content(t))
    case (EmptyDelta, Some(r)) => if r == StopReason then Some(Stop) else None
    case _ => None
  }

  /** `json.dumps` of the delta object, with its default `", "` and `": "` separators. */
  function DeltaJson(d: Delta): string {
    match d
    case RoleDelta => "{\"role\": " + JsonText.Quote(AssistantRole) + "}"
    case ContentDelta(t) => "{\"content\": " + JsonText.Quote(t) + "}"
    case EmptyDelta => "{}"
  }

  function FinishJson(f: Option<string>): string {
    match f
    case None => "null"
    case Some(r) => JsonText.Quote(r)
  }

  /** `json.dumps(chunk, ensure_ascii=False)`, keys in the order the chunk dictionaries list them. */
  function ChunkJson(c: Chunk): (j: string)
    ensures |j| > 0 && j[0] == '{' && j[|j| - 1] == '}'
  {
    "{\"id\": " + JsonText.Quote(c.id)
    + ", \"object\": " + JsonText.Quote(ChunkObject)
    + ", \"created\": " + Decimal(c.created)
    + ", \"model\": " + JsonText.Quote(c.model)
    + ", \"choices\": [{\"index\": 0, \"delta\": " + DeltaJson(c.delta)
    + ", \"finish_reason\": " + FinishJson(c.finishReason) + "}]}"
  }

  /** `f"data: {json}\n\n"`: one Server-Sent-Events frame carrying a chunk. */
  function Frame(c: Chunk): (f: string)
    ensures StartsWith(f, "data: {")
    ensures |f| >= 2 && f[|f| - 2..] == "\n\n"
    ensures f != DoneFrame
  {
    var j := ChunkJson(c);
    Enveloped(j);
    "data: " + j + "\n\n"
  }

  /** Any JSON object sent as a frame has the frame's shape and differs from the sentinel. */
  lemma Enveloped(j: string)
    requires |j| > 0 && j[0] == '{'
    ensures var f := "data: " + j + "\n\n";
      StartsWith(f, "data: {") && f[|f| - 2..] == "\n\n" && f != DoneFrame
  {
    Seqs.Framed("data: ", j, "\n\n");
    var f := "data: " + j + "\n\n";
    assert f[6] == '{';
    assert DoneFrame[6] == '[';
  }

  /** A chunk a client reads as an event is exactly the chunk built from that event. */
  lemma EventOfInvertsChunkOf(c: Chunk)
    requires EventOf(c).Some?
    ensures ChunkOf(c.id, c.model, c.created, EventOf(c).value) == c
  {
  }
}

=== FILE: config.dfy ===
/**
  The process configuration (`Settings` in app/core/config.py) as an immutable value
  handed to every component that reads it.
*/
module Config {
  import opened Wrappers

  /** Successive readings of the wall clock: `clock(i)` is `int(time.time())` at the i-th
      reading a component takes. */
  type Clock = nat -> nat

  /** The credentials of one upstream account: `BAIDU_ACCOUNT_<n>_COOKIE`, `_ACS_TOKEN`, `_SIGN`. */
  datatype Account = Account(cookie: string, acsToken: string, sign: string)

  /** An account number is a key of `accounts` exactly when its three settings exist. */
  datatype Settings = Settings(
    apiMasterKey: Option<string>,
    supportedModels: seq<string>,
    accounts: map<nat, Account>)

  /** The configuration when no environment variable is set: no master key, the two
      advertised aliases, and account 1 with empty credentials. */
  const Defaults: Settings :=
    Settings(None, ["ernie-4.5-turbo", "ernie-x1"], map[1 := Account("", "", "")])
}

=== FILE: json_text.dfy ===
/**
  The part of JSON serialisation the gateway's output depends on: how `json.dumps`
  with `ensure_ascii=False` writes a string, and the JSON string decoding
  (section 7 of RFC 8259) that a client applies to read it back.
*/
module JsonText {
  import Seqs
  import opened Wrappers
  import opened Text

  /** A lower-case hexadecimal digit, as Python's `'{0:04x}'` writes it. */
  function HexDigit(d: nat): (c: char)
    requires d < 16
    ensures '0' <= c <= '9' || 'a' <= c <= 'f'
    ensures HexValue(c) == Some(d)
  {
    if d < 10 then DigitChar(d) else ('a' as int + d - 10) as char
  }

  /** The value of a hexadecimal digit of either case. */
  function HexValue(c: char): (r: Option<nat>)
    ensures r.Some? ==> r.value < 16
  {
    if '0' <= c <= '9' then Some(c as int - '0' as int)
    else if 'a' <= c <= 'f' then Some(c as int - 'a' as int + 10)
    else if 'A' <= c <= 'F' then Some(c as int - 'A' as int + 10)
    else None
  }

  /** The value of four hexadecimal digits. */
  function Hex4Value(h: string): (r: Option<nat>)
    requires |h| == 4
    ensures r.Some? ==> r.value < 0x10000
  {
    match (HexValue(h[0]), HexValue(h[1]), HexValue(h[2]), HexValue(h[3]))
    case (Some(a), Some(b), Some(c), Some(d)) => Some(((a * 16 + b) * 16 + c) * 16 + d)
    case _ => None
  }

  /** A character that `json.dumps` must escape: the quote, the backslash, a control character. */
  predicate NeedsEscape(c: char) {
    c == '"' || c == '\\' || c as int < 0x20
  }

  /** How `json.dumps(..., ensure_ascii=False)` writes one character inside a string. */
  function EscapeChar(c: char): (r: string)
    ensures |r| > 0
    ensures !NeedsEscape(c) ==> r == [c]
    ensures NeedsEscape(c) ==> r[0] == '\\'
  {
    if c == '"' then "\\\""
    else if c == '\\' then "\\\\"
    else if c == '\n' then "\\n"
    else if c == '\r' then "\\r"
    else if c == '\t' then "\\t"
    else if c as int == 0x08 then "\\b"
    else if c as int == 0x0c then "\\f"
    else if c as int < 0x20 then "\\u00" + [HexDigit(c as int / 16), HexDigit(c as int % 16)]
    else [c]
  }

  /** The body of a JSON string literal for `s`, without the surrounding quotes. */
  function Escape(s: string): (r: string)
    ensures |r| >= |s|
    ensures forall i :: 0 <= i < |r| ==> !(r[i] as int < 0x20)
  {
    if |s| == 0 then "" else EscapeChar(s[0]) + Escape(s[1..])
  }

  /** `s` as a quoted JSON string. */
  function Quote(s: string): string {
    "\"" + Escape(s) + "\""
  }

  /** Prefixes a decoded character to a decoded remainder. */
  function Prepend(c: char, rest: Option<string>): Option<string> {
    match rest
    case Some(r) => Some([c] + r)
    case None => None
  }

  /** The character a two-character escape `\e` stands for, if `e` names one. */
  function ShortEscape(e: char): Option<char> {
    if e == '"' || e == '\\' || e == '/' then Some(e)
    else if e == 'n' then Some('\n')
    else if e == 'r' then Some('\r')
    else if e == 't' then Some('\t')
    else if e == 'b' then Some(0x08 as char)
    else if e == 'f' then Some(0x0c as char)
    else None
  }

  /** The character named by the four hexadecimal digits of a `\u` escape; `None` for
      non-digits and for a surrogate. */
  function UnicodeEscape(h: string): Option<char>
    requires |h| == 4
  {
    match Hex4Value(h)
    case Some(v) => if v < 0xD800 || 0xE000 <= v then Some(v as char) else None
    case None => None
  }

  /** Decodes the body of a JSON string literal; `None` for a body no JSON string has.
      A `\u` escape must name a Unicode scalar value: surrogate pairs are not combined. */
  function Unescape(t: string): Option<string>
    decreases |t|
  {
    if |t| == 0 then Some("")
    else if t[0] == '"' || t[0] as int < 0x20 then None
    else if t[0] != '\\' then Prepend(t[0], Unescape(t[1..]))
    else if |t| < 2 then None
    else if t[1] == 'u' then
      if |t| < 6 then None
      else
        match UnicodeEscape(t[2..6])
        case Some(c) => Prepend(c, Unescape(t[6..]))
        case None => None
    else
      match ShortEscape(t[1])
      case Some(c) => Prepend(c, Unescape(t[2..]))
      case None => None
  }

  lemma ControlEscapeValue(c: char)
    requires c as int < 0x20
    ensures var n := c as int;
      Hex4Value(['0', '0', HexDigit(n / 16), HexDigit(n % 16)]) == Some(n)
  {
  }

  /** Decoding one escaped character followed by anything decodes the character first. */
  lemma UnescapeEscapeChar(c: char, rest: string)
    ensures Unescape(EscapeChar(c) + rest) == Prepend(c, Unescape(rest))
  {
    var t := EscapeChar(c) + rest;
    var k := |EscapeChar(c)|;
    Seqs.ConcatSlices(EscapeChar(c), rest);
    assert t[k..] == rest;
    if c as int < 0x20 && c != '\n' && c != '\r' && c != '\t' && c as int != 0x08 && c as int != 0x0c {
      var n := c as int;
      assert EscapeChar(c) == "\\u00" + [HexDigit(n / 16), HexDigit(n % 16)];
      assert t[2..6] == ['0', '0', HexDigit(n / 16), HexDigit(n % 16)];
      ControlEscapeValue(c);
      assert (n as char) == c;
    }
  }

  /** Every string survives a trip through `json.dumps` and back. */
  lemma {:induction false} EscapeRoundTrip(s: string)
    ensures Unescape(Escape(s)) == Some(s)
    decreases |s|
  {
    if |s| > 0 {
      UnescapeEscapeChar(s[0], Escape(s[1..]));
      EscapeRoundTrip(s[1..]);
      Seqs.HeadTail(s);
    }
  }

  /** With `ensure_ascii=False`, text needing no escape, non-ASCII included, is written as it is. */
  lemma {:induction false} EscapeKeepsPlainText(s: string)
    requires forall i :: 0 <= i < |s| ==> !NeedsEscape(s[i])
    ensures Escape(s) == s
    decreases |s|
  {
    if |s| > 0 {
      EscapeKeepsPlainText(s[1..]);
      Seqs.HeadTail(s);
    }
  }
}

=== FILE: models.dfy ===
/**
  `list_models` in main.py: one model record per configured alias.
*/
module Models {
  import opened Config

  datatype ModelCard = ModelCard(id: string, kind: string, created: nat, ownedBy: string)
  datatype ModelList = ModelList(kind: string, data: seq<ModelCard>)

  /** The record advertised for one alias, created at the given second. */
  function CardFor(alias: string, created: nat): ModelCard {
    ModelCard(alias, "model", created, "system")
  }

  /** Builds the listing in configured order, reading the clock once per alias. */
  method ListModels(settings: Settings, clock: Clock) returns (r: ModelList)
    ensures r.kind == "list"
    ensures |r.data| == |settings.supportedModels|
    ensures forall i :: 0 <= i < |r.data| ==>
      && r.data[i].id == settings.supportedModels[i]
      && r.data[i].kind == "model" && r.data[i].ownedBy == "system"
      && r.data[i].created == clock(i)
  {
    var names := settings.supportedModels;
    var data: seq<ModelCard> := [];
    var k := 0;
    while k < |names|
      invariant 0 <= k <= |names|
      invariant |data| == k
      invariant forall i :: 0 <= i < k ==> data[i] == CardFor(names[i], clock(i))
    {
      data := data + [CardFor(names[k], clock(k))];
      k := k + 1;
    }
    r := ModelList("list", data);
  }
}

=== FILE: provider.dfy ===
/**
  `BaiduProvider.chat_completion` and `_handle_stream_task`: the request is prepared
  first, and any error raised while preparing it becomes a JSON error reply; only a fully
  prepared request is handed to the streaming generator, which is what contacts the
  upstream.
*/
module Provider {
  import opened Wrappers
  import opened Config
  import opened Chunks
  import opened Transducer
  import opened Stream
  import opened Request

  /** Only account 1 is used. */
  const AccountId: nat := 1
  const UpstreamUrl := "https://ernie.baidu.com/eb/chat/conversation/v2"
  const EventStreamType := "text/event-stream"
  const ErrorKind := "provider_error"
  const ErrorPrefix := "处理任务时出错: "

  datatype UpstreamRequest = UpstreamRequest(url: string, headers: Headers, payload: Payload)

  /** `{"error": {"message": ..., "type": ...}}`. */
  datatype ErrorBody = ErrorBody(message: string, kind: string)

  /** What `chat_completion` returns: a JSON error, or a streaming response whose generator
      will send `request` and echo `model`. */
  datatype Reply =
    | ErrorReply(status: nat, body: ErrorBody)
    | StreamReply(mediaType: string, request: UpstreamRequest, model: string)

  /** Whether the configured account can be used at all: present, with non-empty cookie,
      access token and sign. */
  predicate Configured(settings: Settings) {
    && AccountId in settings.accounts
    && |settings.accounts[AccountId].cookie| > 0
    && |settings.accounts[AccountId].acsToken| > 0
    && |settings.accounts[AccountId].sign| > 0
  }

  /** The first error preparing the request raises: the headers are built before the payload. */
  function PrepareError(settings: Settings, req: ChatRequest, nowMs: nat): Option<ProviderError> {
    match PrepareHeaders(settings, AccountId)
    case Err(e) => Some(e)
    case Ok(_) =>
      match PreparePayload(settings, req, AccountId, nowMs)
      case Err(e) => Some(e)
      case Ok(_) => None
  }

  /** `chat_completion(request)`, with `nowMs` the millisecond clock reading for the payload. */
  function ChatCompletion(settings: Settings, req: ChatRequest, nowMs: nat): (r: Reply)
    ensures r.ErrorReply? <==> !Configured(settings) || req.messages == Some([])
    ensures r.ErrorReply? ==>
      && r.status == 500 && r.body.kind == ErrorKind
      && PrepareError(settings, req, nowMs).Some?
      && r.body.message == ErrorPrefix + Describe(PrepareError(settings, req, nowMs).value)
    ensures r.StreamReply? ==>
      && r.mediaType == EventStreamType
      && r.request.url == UpstreamUrl
      && PrepareHeaders(settings, AccountId) == Ok(r.request.headers)
      && PreparePayload(settings, req, AccountId, nowMs) == Ok(r.request.payload)
      && r.model == Alias(req)
  {
    match PrepareHeaders(settings, AccountId)
    case Err(e) => ErrorReply(500, ErrorBody(ErrorPrefix + Describe(e), ErrorKind))
    case Ok(headers) =>
      match PreparePayload(settings, req, AccountId, nowMs)
      case Err(e) => ErrorReply(500, ErrorBody(ErrorPrefix + Describe(e), ErrorKind))
      case Ok(payload) => StreamReply(EventStreamType, UpstreamRequest(UpstreamUrl, headers, payload), Alias(req))
  }

  /** The upstream request a configured account and a non-empty message list lead to. */
  function SentRequest(settings: Settings, req: ChatRequest, nowMs: nat): UpstreamRequest
    requires Configured(settings) && req.messages != Some([])
  {
    assert ChatCompletion(settings, req, nowMs).StreamReply?;
    UpstreamRequest(UpstreamUrl, PrepareHeaders(settings, AccountId).value, PreparePayload(settings, req, AccountId, nowMs).value)
  }

  /** What the client finally receives. */
  datatype Response = JsonResponse(status: nat, body: ErrorBody) | EventStream(frames: seq<string>)

  /** The whole exchange for one chat request. `upstream` says how the upstream answers a
      request; it is consulted only when the streaming generator runs. */
  function Respond(
    settings: Settings, req: ChatRequest, nowMs: nat, upstream: UpstreamRequest -> Upstream,
    parse: string -> Decoded, hex: string, clock: Clock): (r: Response)
    ensures r.JsonResponse? <==> !Configured(settings) || req.messages == Some([])
    ensures r.JsonResponse? ==> r.status == 500 && r.body.kind == ErrorKind
    ensures r.EventStream? ==> |r.frames| >= 1 && r.frames[|r.frames| - 1] == DoneFrame
    ensures r.EventStream? ==>
      r.frames == Body(upstream(SentRequest(settings, req, nowMs)), parse, hex, Alias(req), clock)
  {
    match ChatCompletion(settings, req, nowMs)
    case ErrorReply(status, body) => JsonResponse(status, body)
    case StreamReply(_, request, model) => EventStream(Body(upstream(request), parse, hex, model, clock))
  }
}

=== FILE: provider_props.dfy ===
/** Properties of the provider's entry point. */
module ProviderProps {
  import opened Wrappers
  import opened Config
  import opened Chunks
  import opened Transducer
  import opened Stream
  import opened Request
  import opened Provider

  /** A configuration error is answered with status 500 before any upstream request exists:
      the response is the same whatever the upstream would have done. */
  lemma ConfigErrorMakesNoUpstreamCall(
    settings: Settings, req: ChatRequest, nowMs: nat,
    up1: UpstreamRequest -> Upstream, up2: UpstreamRequest -> Upstream,
    parse: string -> Decoded, hex: string, clock: Clock)
    requires !Configured(settings)
    ensures Respond(settings, req, nowMs, up1, parse, hex, clock) == Respond(settings, req, nowMs, up2, parse, hex, clock)
    ensures var r := Respond(settings, req, nowMs, up1, parse, hex, clock);
      r.JsonResponse? && r.status == 500 && r.body.kind == ErrorKind
  {
  }

  /** Missing credentials are reported before a missing sign or an empty message list. */
  lemma HeaderErrorsComeFirst(settings: Settings, req: ChatRequest, nowMs: nat)
    requires AccountId in settings.accounts
    requires |settings.accounts[AccountId].cookie| == 0
    ensures ChatCompletion(settings, req, nowMs)
      == ErrorReply(500, ErrorBody(ErrorPrefix + Describe(CredentialsEmpty(AccountId)), ErrorKind))
  {
  }

  /** With the default configuration (empty credentials) every chat request fails with 500. */
  lemma DefaultsRefuseEveryChat(req: ChatRequest, nowMs: nat)
    ensures ChatCompletion(Defaults, req, nowMs).ErrorReply?
  {
  }

  /** A configured account and a non-empty message list always reach the stream: the
      upstream receives the prepared headers and payload, and when it answers 2xx the client
      receives one framed chunk per event translated from its lines, under the requested
      alias, followed by the sentinel. */
  lemma ConfiguredRequestStreams(
    settings: Settings, req: ChatRequest, nowMs: nat, upstream: UpstreamRequest -> Upstream,
    parse: string -> Decoded, hex: string, clock: Clock)
    requires Configured(settings) && req.messages != Some([])
    ensures PrepareHeaders(settings, AccountId).Ok? && PreparePayload(settings, req, AccountId, nowMs).Ok?
    ensures var sent := UpstreamRequest(UpstreamUrl, PrepareHeaders(settings, AccountId).value,
                                        PreparePayload(settings, req, AccountId, nowMs).value);
      Respond(settings, req, nowMs, upstream, parse, hex, clock)
        == EventStream(Body(upstream(sent), parse, hex, Alias(req), clock))
    ensures var u := upstream(SentRequest(settings, req, nowMs));
      u.Responded? && 200 <= u.status < 300 ==>
        var frames := Respond(settings, req, nowMs, upstream, parse, hex, clock).frames;
        var evs := Translate(parse, u.lines);
        && |frames| == |evs| + 1
        && frames[|evs|] == DoneFrame
        && forall i :: 0 <= i < |evs| ==> frames[i] == Frame(ChunkOf(ChatId(hex), Alias(req), clock(i), evs[i]))
  {
    var u := upstream(SentRequest(settings, req, nowMs));
    if u.Responded? && 200 <= u.status < 300 {
      SuccessfulExchangeReadsLines(u.status, u.lines, u.cutOff, parse, hex, Alias(req), clock);
    }
  }
}

=== FILE: request.dfy ===
/**
  Building the upstream request from the inbound chat request and an account's
  credentials: `_prepare_headers`, `_prepare_payload` and the model alias table.
*/
module Request {
  import opened Wrappers
  import opened Text
  import opened Config

  /** One inbound message; `None` stands for a missing key. */
  datatype Message = Message(role: Option<string>, content: Option<string>)

  /** The inbound request body; `None` stands for a missing key. */
  datatype ChatRequest = ChatRequest(model: Option<string>, messages: Option<seq<Message>>)

  /** The errors raised while preparing a request, one per `raise` (and the `IndexError` of
      `[-1]` on an empty list). */
  datatype ProviderError =
    | AccountIncomplete(account: nat)
    | CredentialsEmpty(account: nat)
    | SignMissing(account: nat)
    | SignEmpty(account: nat)
    | NoMessages

  /** `str(e)` for each error. */
  function Describe(e: ProviderError): string {
    match e
    case AccountIncomplete(n) => "百度账号 " + Decimal(n) + " 的配置不完整。"
    case CredentialsEmpty(n) => "百度账号 " + Decimal(n) + " 的认证信息为空。"
    case SignMissing(n) => "百度账号 " + Decimal(n) + " 的 sign 未配置。"
    case SignEmpty(n) => "百度账号 " + Decimal(n) + " 的 sign 为空。"
    case NoMessages => "list index out of range"
  }

  const DefaultAlias := "ernie-4.5-turbo"
  const DefaultBackend := "EB45T"
  const DefaultText := "你好"
  const DeviceType := "pc"

  /** `MODEL_MAP`: public alias to upstream model identifier. */
  const ModelMap: map<string, string> := map["ernie-4.5-turbo" := "EB45T", "ernie-x1" := "X1_1"]

  /** The upstream request headers, one field per header `_prepare_headers` sets. */
  datatype Headers = Headers(
    accept: string,
    acsToken: string,
    connection: string,
    contentType: string,
    cookie: string,
    deviceType: string,
    origin: string,
    referer: string,
    userAgent: string)

  const Accept := "text/event-stream,application/json, text/event-stream"
  const Origin := "https://ernie.baidu.com"
  const Referer := "https://ernie.baidu.com/"
  const UserAgent := "Mozilla/5.0 (Windows NT 10.0; Win64; x64) AppleWebKit/537.36 (KHTML, like Gecko) Chrome/140.0.0.0 Safari/537.36"

  /** The headers that do not depend on the account: event-stream negotiation, JSON body,
      and the markers of a desktop browser on the upstream's own site. */
  predicate BrowserMarkers(h: Headers) {
    && h.accept == Accept && h.connection == "keep-alive" && h.contentType == "application/json"
    && h.deviceType == DeviceType && h.origin == Origin && h.referer == Referer && h.userAgent == UserAgent
  }

  /** `_prepare_headers(account)`: the account must exist and have a non-empty cookie and
      access token; the headers then carry both. */
  function PrepareHeaders(settings: Settings, account: nat): (r: Result<Headers, ProviderError>)
    ensures r.Ok? <==>
      account in settings.accounts
      && |settings.accounts[account].cookie| > 0 && |settings.accounts[account].acsToken| > 0
    ensures account !in settings.accounts ==> r == Err(AccountIncomplete(account))
    ensures account in settings.accounts && r.Err? ==> r == Err(CredentialsEmpty(account))
    ensures r.Ok? ==>
      && r.value.cookie == settings.accounts[account].cookie
      && r.value.acsToken == settings.accounts[account].acsToken
      && BrowserMarkers(r.value)
  {
    if account !in settings.accounts then Err(AccountIncomplete(account))
    else
      var acc := settings.accounts[account];
      if |acc.cookie| == 0 || |acc.acsToken| == 0 then Err(CredentialsEmpty(account))
      else Ok(Headers(Accept, acc.acsToken, "keep-alive", "application/json", acc.cookie,
                      DeviceType, Origin, Referer, UserAgent))
  }

  /** The alias the request names, `ernie-4.5-turbo` when it names none. */
  function Alias(req: ChatRequest): string {
    req.model.GetOr(DefaultAlias)
  }

  /** `MODEL_MAP.get(alias, "EB45T")`: always one of the table's backend models. */
  function BackendModel(alias: string): (m: string)
    ensures m in ModelMap.Values
    ensures alias in ModelMap ==> m == ModelMap[alias]
    ensures alias !in ModelMap ==> m == DefaultBackend
  {
    assert ModelMap["ernie-4.5-turbo"] == DefaultBackend;
    if alias in ModelMap then ModelMap[alias] else DefaultBackend
  }

  /** `request_data.get("messages", [{}])[-1].get("content", "你好")`. */
  function LastMessageText(messages: Option<seq<Message>>): (r: Result<string, ProviderError>)
    ensures r.Err? <==> messages == Some([])
    ensures r.Err? ==> r.error == NoMessages
  {
    match messages
    case None => Ok(DefaultText)
    case Some(ms) =>
      if |ms| == 0 then Err(NoMessages) else Ok(ms[|ms| - 1].content.GetOr(DefaultText))
  }

  /** The JSON body sent upstream. */
  datatype Payload = Payload(
    sign: string,
    timestamp: nat,
    deviceType: string,
    text: string,
    model: string,
    sessionId: string,
    sessionName: string,
    parentChatId: string,
    isNewYiyan: bool)

  /** `_prepare_payload(request, account)`, with `nowMs` the `int(time.time() * 1000)`
      reading: the sign must exist and be non-empty, then the message list must not be
      empty; only the last message's text is forwarded. */
  function PreparePayload(settings: Settings, req: ChatRequest, account: nat, nowMs: nat): (r: Result<Payload, ProviderError>)
    ensures r.Ok? <==>
      account in settings.accounts && |settings.accounts[account].sign| > 0 && req.messages != Some([])
    ensures account !in settings.accounts ==> r == Err(SignMissing(account))
    ensures account in settings.accounts && |settings.accounts[account].sign| == 0 ==> r == Err(SignEmpty(account))
    ensures account in settings.accounts && |settings.accounts[account].sign| > 0 && req.messages == Some([]) ==>
      r == Err(NoMessages)
    ensures r.Ok? ==>
      && r.value.sign == settings.accounts[account].sign
      && r.value.timestamp == nowMs
      && r.value.deviceType == DeviceType
      && r.value.model == BackendModel(Alias(req))
      && r.value.model in ModelMap.Values
      && r.value.isNewYiyan
      && Ok(r.value.text) == LastMessageText(req.messages)
      && r.value.sessionId == "" && r.value.sessionName == "" && r.value.parentChatId == "0"
  {
    if account !in settings.accounts then Err(SignMissing(account))
    else
      var sign := settings.accounts[account].sign;
      if |sign| == 0 then Err(SignEmpty(account))
      else
        match LastMessageText(req.messages)
        case Err(e) => Err(e)
        case Ok(text) =>
          Ok(Payload(sign, nowMs, DeviceType, text, BackendModel(Alias(req)), "", "", "0", true))
  }
}

=== FILE: request_props.dfy ===
/** Properties of request building. */
module RequestProps {
  import opened Wrappers
  import opened Config
  import opened Request

  /** Only the last message reaches the upstream: earlier turns are dropped. */
  lemma OnlyLastMessageCounts(history: seq<Message>, last: Message)
    ensures LastMessageText(Some(history + [last])) == LastMessageText(Some([last]))
    ensures LastMessageText(Some([last])) == Ok(last.content.GetOr(DefaultText))
  {
  }

  /** The greeting stands in only for a missing `messages` key or a missing `content` key,
      never for an empty list. */
  lemma GreetingOnlyForMissingKeys(messages: Option<seq<Message>>)
    ensures LastMessageText(messages) == Ok(DefaultText) <==>
      messages.None?
      || (|messages.value| > 0 && messages.value[|messages.value| - 1].content in {None, Some(DefaultText)})
  {
  }

  /** Every alias the default configuration advertises has its own entry in the alias table. */
  lemma AdvertisedAliasesAreMapped()
    ensures forall i :: 0 <= i < |Defaults.supportedModels| ==> Defaults.supportedModels[i] in ModelMap
  {
  }

}

=== FILE: seqs.dfy ===
/** Generic facts about sequence concatenation and slicing. */
module Seqs {
  /** Both parts of `a + b` can be read back off it. */
  lemma ConcatSlices<T>(a: seq<T>, b: seq<T>)
    ensures (a + b)[..|a|] == a && (a + b)[|a|..] == b
  {
  }

  /** The three parts of `a + j + b` can be read back off it. */
  lemma Framed<T>(a: seq<T>, j: seq<T>, b: seq<T>)
    requires |j| > 0
    ensures (a + j + b)[..|a|] == a
    ensures (a + j + b)[|a|] == j[0]
    ensures (a + j + b)[..|a| + 1] == a + [j[0]]
    ensures (a + j + b)[|a| + |j|..] == b
  {
  }

  /** Regrouping four concatenated parts. */
  lemma Assoc3<T>(a: seq<T>, b: seq<T>, c: seq<T>, d: seq<T>)
    ensures (a + b) + (c + d) == a + (b + c) + d
  {
  }

  /** Dropping a single leading element. */
  lemma DropHead<T>(x: T, a: seq<T>, b: seq<T>)
    ensures ([x] + a + b)[1..] == a + b
  {
  }

  /** A sequence is its prefix exactly when nothing follows the prefix. */
  lemma EmptyTail<T>(p: seq<T>, r: seq<T>, t: seq<T>)
    requires t == p + r
    ensures |r| == 0 <==> t == p
  {
    if |r| > 0 {
      assert |t| > |p|;
    }
  }

  /** The head and tail of a concatenation whose first part is non-empty. */
  lemma ConsConcat<T>(a: seq<T>, b: seq<T>)
    requires |a| > 0
    ensures (a + b)[0] == a[0] && (a + b)[1..] == a[1..] + b
  {
  }

  /** A non-empty sequence is its head followed by its tail. */
  lemma HeadTail<T>(s: seq<T>)
    requires |s| > 0
    ensures s == [s[0]] + s[1..]
  {
  }
}

=== FILE: stream.dfy ===
/**
  The whole streaming generator: the upstream exchange, the chunks built from the
  translated events, and the frames sent to the client, ending with `[DONE]` on every
  path out of the generator.
*/
module Stream {
  import Seqs
  import opened Wrappers
  import opened Text
  import opened Config
  import opened Chunks
  import opened Transducer
  import TransducerProps

  /** What the upstream HTTP exchange gives the generator. */
  datatype Upstream =
    | Unreachable                                            // no response: refused, timed out
    | Responded(status: int, lines: seq<string>, cutOff: bool) // `cutOff`: the transport failed after `lines`

  /** The lines the read loop gets to see: none unless the status is 2xx, which is when
      `raise_for_status` lets the generator go on. */
  function Delivered(u: Upstream): seq<string> {
    match u
    case Unreachable => []
    case Responded(status, lines, _) => if 200 <= status < 300 then lines else []
  }

  const ChatIdPrefix := "chatcmpl-"

  /** `f"chatcmpl-{uuid.uuid4().hex}"`, the hexadecimal part supplied by the caller. */
  function ChatId(hex: string): (id: string)
    ensures StartsWith(id, ChatIdPrefix)
    ensures id[|ChatIdPrefix|..] == hex
  {
    Seqs.ConcatSlices(ChatIdPrefix, hex);
    ChatIdPrefix + hex
  }

  /** The chunks the generator builds, the i-th stamped with the i-th clock reading. */
  function StreamChunks(u: Upstream, parse: string -> Decoded, hex: string, model: string, clock: Clock): (cs: seq<Chunk>)
    ensures var evs := Translate(parse, Delivered(u));
      && |cs| == |evs|
      && forall i :: 0 <= i < |cs| ==>
           && cs[i].id == ChatId(hex) && cs[i].model == model && cs[i].created == clock(i)
           && EventOf(cs[i]) == Some(evs[i])
  {
    var evs := Translate(parse, Delivered(u));
    var cs := seq(|evs|, i requires 0 <= i < |evs| => ChunkOf(ChatId(hex), model, clock(i), evs[i]));
    assert forall i :: 0 <= i < |cs| ==> cs[i] == ChunkOf(ChatId(hex), model, clock(i), evs[i]);
    cs
  }

  /** Everything the generator yields: one frame per chunk, then the sentinel from the
      `finally` clause. */
  function Body(u: Upstream, parse: string -> Decoded, hex: string, model: string, clock: Clock): (frames: seq<string>)
    ensures |frames| >= 1 && frames[|frames| - 1] == DoneFrame
    ensures forall i :: 0 <= i < |frames| - 1 ==> frames[i] != DoneFrame
  {
    var cs := StreamChunks(u, parse, hex, model, clock);
    seq(|cs|, i requires 0 <= i < |cs| => Frame(cs[i])) + [DoneFrame]
  }

  /** The sentinel is sent exactly once, whatever the upstream did. */
  lemma DoneExactlyOnce(u: Upstream, parse: string -> Decoded, hex: string, model: string, clock: Clock)
    ensures multiset(Body(u, parse, hex, model, clock))[DoneFrame] == 1
  {
    var frames := Body(u, parse, hex, model, clock);
    var init := frames[..|frames| - 1];
    assert frames == init + [DoneFrame];
    assert DoneFrame !in init;
    assert multiset(init)[DoneFrame] == 0;
  }

  /** A non-2xx status or an unreachable upstream yields the sentinel and nothing else. */
  lemma FailedExchangeYieldsOnlyDone(u: Upstream, parse: string -> Decoded, hex: string, model: string, clock: Clock)
    requires u.Unreachable? || !(200 <= u.status < 300)
    ensures Body(u, parse, hex, model, clock) == [DoneFrame]
  {
  }

  /** A transport failure after some lines ends the stream exactly as a normal close would. */
  lemma CutOffEndsLikeClose(status: int, lines: seq<string>, parse: string -> Decoded, hex: string, model: string, clock: Clock)
    ensures Body(Responded(status, lines, true), parse, hex, model, clock)
         == Body(Responded(status, lines, false), parse, hex, model, clock)
  {
  }

  /** The frames before the sentinel are exactly the framed chunks of the translated events,
      every one carrying the stream's identifier and the echoed model. */
  lemma BodyCarriesEvents(u: Upstream, parse: string -> Decoded, hex: string, model: string, clock: Clock)
    ensures var frames := Body(u, parse, hex, model, clock);
      var evs := Translate(parse, Delivered(u));
      && |frames| == |evs| + 1
      && forall i :: 0 <= i < |evs| ==> frames[i] == Frame(ChunkOf(ChatId(hex), model, clock(i), evs[i]))
  {
  }

  /** A 2xx response has every line it delivers read: the frames before the sentinel are
      the framed chunks of the events translated from all of them. */
  lemma SuccessfulExchangeReadsLines(
    status: int, lines: seq<string>, cutOff: bool,
    parse: string -> Decoded, hex: string, model: string, clock: Clock)
    requires 200 <= status < 300
    ensures var frames := Body(Responded(status, lines, cutOff), parse, hex, model, clock);
      var evs := Translate(parse, lines);
      && |frames| == |evs| + 1
      && forall i :: 0 <= i < |evs| ==> frames[i] == Frame(ChunkOf(ChatId(hex), model, clock(i), evs[i]))
  {
    BodyCarriesEvents(Responded(status, lines, cutOff), parse, hex, model, clock);
  }
}

=== FILE: text.dfy ===
/**
  Python string primitives the gateway relies on: `str.isspace`, `str.strip`,
  `str.startswith`, slicing, `str.split()` with no separator, `str.lower()` as far
  as a comparison with an ASCII word needs it, and `str(n)` for naturals.
*/
module Text {
  import opened Seqs

  /** Python's `str.isspace` for one character: bidirectional class WS, B or S, or category Zs. */
  predicate IsSpace(c: char) {
    var n := c as int;
    || (0x09 <= n <= 0x0d)
    || (0x1c <= n <= 0x20)
    || n == 0x85 || n == 0xa0 || n == 0x1680
    || (0x2000 <= n <= 0x200a)
    || n == 0x2028 || n == 0x2029 || n == 0x202f || n == 0x205f || n == 0x3000
  }

  /** No character of `s` is whitespace. */
  predicate NoSpace(s: string) {
    forall i :: 0 <= i < |s| ==> !IsSpace(s[i])
  }

  /** A non-empty, whitespace-free string: what `str.split()` yields. */
  predicate IsWord(w: string) {
    |w| > 0 && NoSpace(w)
  }

  /** Every character of `s` is whitespace. */
  predicate AllSpace(s: string) {
    forall i :: 0 <= i < |s| ==> IsSpace(s[i])
  }

  /** `s.lstrip()`: drop leading whitespace. */
  function LStrip(s: string): (r: string)
    ensures |r| <= |s| && r == s[|s| - |r|..]
    ensures |r| == 0 || !IsSpace(r[0])
    decreases |s|
  {
    if |s| > 0 && IsSpace(s[0]) then LStrip(s[1..]) else s
  }

  /** `s.rstrip()`: drop trailing whitespace. */
  function RStrip(s: string): (r: string)
    ensures |r| <= |s| && r == s[..|r|]
    ensures |r| == 0 || !IsSpace(r[|r| - 1])
    decreases |s|
  {
    if |s| > 0 && IsSpace(s[|s| - 1]) then RStrip(s[..|s| - 1]) else s
  }

  /** `rstrip` removes only whitespace. */
  lemma {:induction false} RStripRemovesSpace(s: string)
    ensures AllSpace(s[|RStrip(s)|..])
    decreases |s|
  {
    if |s| > 0 && IsSpace(s[|s| - 1]) {
      var t := s[..|s| - 1];
      RStripRemovesSpace(t);
      var k := |RStrip(t)|;
      assert s[k..] == t[k..] + [s[|s| - 1]];
    }
  }

  /** `lstrip` removes only whitespace. */
  lemma {:induction false} LStripRemovesSpace(s: string)
    ensures AllSpace(s[..|s| - |LStrip(s)|])
    decreases |s|
  {
    if |s| > 0 && IsSpace(s[0]) {
      var t := s[1..];
      LStripRemovesSpace(t);
      var k := |t| - |LStrip(t)|;
      assert s[..k + 1] == [s[0]] + t[..k];
    }
  }

  /** `s.strip()`: neither end of the result is whitespace. */
  function Strip(s: string): (r: string)
    ensures |r| <= |s|
    ensures |r| == 0 || (!IsSpace(r[0]) && !IsSpace(r[|r| - 1]))
  {
    RStrip(LStrip(s))
  }

  predicate StartsWith(s: string, prefix: string) {
    |prefix| <= |s| && s[..|prefix|] == prefix
  }

  /** Python's `s[n:]` for `n >= 0`: empty when `n` is past the end, never an error. */
  function SliceFrom(s: string, n: nat): (r: string)
    ensures n <= |s| ==> r == s[n..]
    ensures n >= |s| ==> r == []
  {
    if n <= |s| then s[n..] else []
  }

  /** A string that does not start with whitespace is left alone by `strip` on the left. */
  lemma StripOfNonSpaceStart(s: string)
    requires |s| > 0 && !IsSpace(s[0])
    ensures Strip(s) == RStrip(s)
    ensures |RStrip(s)| > 0
  {
  }

  /** `rstrip` keeps every character up to the last non-whitespace one. */
  lemma RStripKeeps(s: string, k: nat)
    requires k < |s| && !IsSpace(s[k])
    ensures k < |RStrip(s)|
  {
    RStripRemovesSpace(s);
  }

  /** Length of the leading run of non-whitespace characters. */
  function TokenLength(s: string): (n: nat)
    ensures n <= |s|
    ensures NoSpace(s[..n])
    ensures n == |s| || IsSpace(s[n])
    decreases |s|
  {
    if |s| == 0 || IsSpace(s[0]) then 0 else 1 + TokenLength(s[1..])
  }

  /** `s.split()`: the maximal runs of non-whitespace characters, in order. */
  function Split(s: string): seq<string>
    decreases |s|
  {
    var t := LStrip(s);
    if |t| == 0 then []
    else
      var n := TokenLength(t);
      [t[..n]] + Split(t[n..])
  }

  /** Every token `Split` yields is a word. */
  lemma {:induction false} SplitYieldsWords(s: string)
    ensures forall i :: 0 <= i < |Split(s)| ==> IsWord(Split(s)[i])
    decreases |s|
  {
    var t := LStrip(s);
    if |t| > 0 {
      var n := TokenLength(t);
      SplitYieldsWords(t[n..]);
      var tokens := Split(s);
      assert tokens == [t[..n]] + Split(t[n..]);
      forall i | 0 <= i < |tokens|
        ensures IsWord(tokens[i])
      {
        if i > 0 {
          assert tokens[i] == Split(t[n..])[i - 1];
        }
      }
    }
  }

  /** A prefix whose last character is not whitespace survives right-stripping. */
  lemma PrefixSurvivesRStrip(s: string, p: string)
    requires StartsWith(s, p) && |p| > 0 && !IsSpace(p[|p| - 1])
    ensures StartsWith(RStrip(s), p)
    ensures RStrip(s) == p + RStrip(s)[|p|..]
  {
    assert s[|p| - 1] == p[|p| - 1];
    RStripKeeps(s, |p| - 1);
    var r := RStrip(s);
    assert r[..|p|] == s[..|p|];
    ConcatSlices(r[..|p|], r[|p|..]);
  }

  /** Joining words with single spaces, the inverse of `Split` on lists of words. */
  function JoinWords(words: seq<string>): string {
    if |words| == 0 then "" else words[0] + SpacedWords(words[1..])
  }

  /** Each word preceded by one space. */
  function SpacedWords(words: seq<string>): string {
    if |words| == 0 then "" else " " + words[0] + SpacedWords(words[1..])
  }

  lemma {:induction false} TokenLengthOfWord(w: string, rest: string)
    requires NoSpace(w)
    requires |rest| == 0 || IsSpace(rest[0])
    ensures TokenLength(w + rest) == |w|
    decreases |w|
  {
    if |w| > 0 {
      ConsConcat(w, rest);
      TokenLengthOfWord(w[1..], rest);
    } else {
      assert w + rest == rest;
    }
  }

  /** A leading word followed by whitespace or nothing is the first token. */
  lemma SplitOfWord(w: string, rest: string)
    requires IsWord(w)
    requires |rest| == 0 || IsSpace(rest[0])
    ensures Split(w + rest) == [w] + Split(rest)
  {
    var s := w + rest;
    assert s[0] == w[0];
    assert LStrip(s) == s;
    TokenLengthOfWord(w, rest);
    ConcatSlices(w, rest);
  }

  lemma SplitOfSpaceStart(s: string)
    requires |s| > 0 && IsSpace(s[0])
    ensures Split(s) == Split(s[1..])
  {
  }

  lemma SplitOfSpacedWord(w: string, rest: string)
    requires IsWord(w)
    requires |rest| == 0 || IsSpace(rest[0])
    ensures Split(" " + w + rest) == [w] + Split(rest)
  {
    var s := " " + w + rest;
    SplitOfSpaceStart(s);
    DropHead(' ', w, rest);
    SplitOfWord(w, rest);
  }

  lemma {:induction false} SplitSpacedWords(words: seq<string>)
    requires forall i :: 0 <= i < |words| ==> IsWord(words[i])
    ensures Split(SpacedWords(words)) == words
    decreases |words|
  {
    if |words| > 0 {
      var w, tail := words[0], words[1..];
      var rest := SpacedWords(tail);
      assert IsWord(w);
      assert |rest| == 0 || IsSpace(rest[0]) by { SpacedStart(tail); }
      assert Split(" " + w + rest) == [w] + Split(rest) by { SplitOfSpacedWord(w, rest); }
      assert Split(rest) == tail by { SplitSpacedWords(tail); }
      assert SpacedWords(words) == " " + w + rest;
      HeadTail(words);
    }
  }

  /** `Split` recovers every list of non-empty, whitespace-free words from its join. */
  lemma SplitJoinWords(words: seq<string>)
    requires forall i :: 0 <= i < |words| ==> IsWord(words[i])
    ensures Split(JoinWords(words)) == words
  {
    if |words| > 0 {
      var w, tail := words[0], words[1..];
      var rest := SpacedWords(tail);
      assert IsWord(w);
      assert |rest| == 0 || IsSpace(rest[0]) by { SpacedStart(tail); }
      assert Split(w + rest) == [w] + Split(rest) by { SplitOfWord(w, rest); }
      assert Split(rest) == tail by { SplitSpacedWords(tail); }
      assert JoinWords(words) == w + rest;
      HeadTail(words);
    }
  }

  /** A non-empty run of spaced words opens with a space. */
  lemma SpacedStart(words: seq<string>)
    ensures |SpacedWords(words)| == 0 || SpacedWords(words)[0] == ' '
  {
  }

  /** ASCII-only lower-casing of one character; every other character is its own image. */
  function AsciiLower(c: char): char {
    if 'A' <= c <= 'Z' then (c as int + 32) as char else c
  }

  function AsciiLowerString(s: string): (r: string)
    ensures |r| == |s|
    ensures forall i :: 0 <= i < |s| ==> r[i] == AsciiLower(s[i])
  {
    if |s| == 0 then [] else [AsciiLower(s[0])] + AsciiLowerString(s[1..])
  }

  /** `s.lower() == word` for a lower-case ASCII `word`. The only characters outside
      `A`-`Z` and `a`-`z` whose lower-case form contains an ASCII letter produce `i` or `k`,
      so ASCII lower-casing decides this exactly for words without those letters, such
      as `bearer`. */
  predicate LowerEquals(s: string, word: string) {
    AsciiLowerString(s) == word
  }

  function DigitChar(d: nat): (c: char)
    requires d < 10
    ensures '0' <= c <= '9'
  {
    ('0' as int + d) as char
  }

  /** `str(n)` for a natural number: its shortest decimal spelling. */
  function Decimal(n: nat): (s: string)
    ensures |s| > 0
    ensures forall i :: 0 <= i < |s| ==> '0' <= s[i] <= '9'
    ensures |s| > 1 ==> s[0] != '0'
    decreases n
  {
    if n < 10 then [DigitChar(n)] else Decimal(n / 10) + [DigitChar(n % 10)]
  }

  /** The value of a string of decimal digits. */
  function DecimalValue(s: string): nat
    requires forall i :: 0 <= i < |s| ==> '0' <= s[i] <= '9'
  {
    if |s| == 0 then 0
    else DecimalValue(s[..|s| - 1]) * 10 + (s[|s| - 1] as int - '0' as int)
  }

  /** Reading back the decimal spelling gives the number. */
  lemma {:induction false} DecimalRoundTrip(n: nat)
    ensures DecimalValue(Decimal(n)) == n
    decreases n
  {
    var s := Decimal(n);
    if n >= 10 {
      DecimalRoundTrip(n / 10);
      assert s[..|s| - 1] == Decimal(n / 10);
    }
  }
}

=== FILE: transducer.dfy ===
/**
  The line-by-line translator at the heart of `BaiduProvider._stream_generator`
  (app/providers/baidu_provider.py): upstream text lines in, standardised events out.

  JSON parsing is a parameter `parse`. It reports one of three outcomes:
  - the remainder fails with `JSONDecodeError`, which the per-line handler catches;
  - parsing or the two `.get` chains raise some other error, which escapes the per-line
    handler: a value or `data` member that is not an object, or a `RecursionError` on
    deeply nested JSON;
  - otherwise, the `data.content` string (absent or `null` alike) and whether
    `data.is_end == 1`.
*/
module Transducer {
  import opened Wrappers
  import opened Text
  import opened Chunks

  const DataPrefix := "data:"

  /** What the JSON parser makes of a line's remainder. */
  datatype Decoded =
    | NotJson                                   // `JSONDecodeError`
    | NotObject                                 // any other error raised outside the per-line handler
    | Obj(content: Option<string>, isEnd: bool)

  /** How one upstream line is treated. */
  datatype Verdict =
    | NotData                              // no `data:` tag: a keep-alive or comment line
    | Blank                                // nothing after the tag
    | Malformed                            // not JSON: logged and skipped
    | Fatal                                // raises outside the per-line handler
    | NoContent                            // `data.content` absent or null: ignored entirely
    | Payload(content: string, isEnd: bool)

  /** `line.strip()[len('data:'):]`. */
  function Remainder(line: string): string {
    SliceFrom(Strip(line), |DataPrefix|)
  }

  function Classify(parse: string -> Decoded, line: string): (v: Verdict)
    ensures v.NotData? <==> !StartsWith(line, DataPrefix)
    ensures v.Payload? ==> StartsWith(line, DataPrefix) && parse(Remainder(line)) == Obj(Some(v.content), v.isEnd)
    ensures StartsWith(line, DataPrefix) && |Remainder(line)| > 0 ==>
      && (parse(Remainder(line)).NotJson? ==> v == Malformed)
      && (parse(Remainder(line)).NotObject? ==> v == Fatal)
      && (parse(Remainder(line)).Obj? && parse(Remainder(line)).content.Some? ==>
            v == Payload(parse(Remainder(line)).content.value, parse(Remainder(line)).isEnd))
      && (parse(Remainder(line)).Obj? && parse(Remainder(line)).content.None? ==> v == NoContent)
  {
    if !StartsWith(line, DataPrefix) then NotData
    else
      var raw := Remainder(line);
      if |raw| == 0 then Blank
      else
        match parse(raw)
        case NotJson => Malformed
        case NotObject => Fatal
        case Obj(None, _) => NoContent
        case Obj(Some(c), e) => Payload(c, e)
  }

  /** A line that leaves both the output and the state alone. */
  predicate Skipped(v: Verdict) {
    v.NotData? || v.Blank? || v.Malformed? || v.NoContent?
  }

  /** A line after which no further line is read. */
  predicate Ends(v: Verdict) {
    v.Fatal? || (v.Payload? && v.isEnd)
  }

  /** The generator's local state: `is_first_chunk`, and whether the read loop has been left. */
  datatype State = State(isFirstChunk: bool, stopped: bool)

  const Initial := State(true, false)

  /** The body of the read loop for one classified line. */
  function Step(st: State, v: Verdict): (r: (State, seq<Event>))
    requires !st.stopped
    ensures r.0.stopped <==> Ends(v)
    ensures Skipped(v) ==> r.0 == st && |r.1| == 0
    ensures r.0.isFirstChunk ==> st.isFirstChunk
  {
    match v
    case Fatal => (st.(stopped := true), [])
    case Payload(c, e) =>
      var role := if st.isFirstChunk && |c| > 0 then [Role] else [];
      var content := if |c| > 0 then [Content(c)] else [];
      var stop := if e then [Stop] else [];
      (State(st.isFirstChunk && |c| == 0, e), role + content + stop)
    case _ => (st, [])
  }

  /** Each line's verdict, in arrival order. */
  function Classified(parse: string -> Decoded, lines: seq<string>): (vs: seq<Verdict>)
    ensures |vs| == |lines|
  {
    if |lines| == 0 then [] else [Classify(parse, lines[0])] + Classified(parse, lines[1..])
  }

  /** The read loop: a fold of `Step` over the classified lines, left as soon as the state
      says stopped, so that no verdict after that point is looked at. */
  function Run(st: State, vs: seq<Verdict>): (State, seq<Event>)
    decreases |vs|
  {
    if |vs| == 0 || st.stopped then (st, [])
    else
      var first := Step(st, vs[0]);
      var rest := Run(first.0, vs[1..]);
      (rest.0, first.1 + rest.1)
  }

  /** The events produced for the lines one response delivers. */
  function Translate(parse: string -> Decoded, lines: seq<string>): seq<Event> {
    Run(Initial, Classified(parse, lines)).1
  }

  // ---------------------------------------------------------------------------
  // A reference description of the output, independent of the state machine
  // ---------------------------------------------------------------------------

  /** The fragment a verdict contributes: a present, non-empty `content`. */
  function Fragment(v: Verdict): seq<string> {
    if v.Payload? && |v.content| > 0 then [v.content] else []
  }

  /** The non-empty fragments of the lines read, in arrival order, up to the first ending line. */
  function Fragments(vs: seq<Verdict>): seq<string>
    decreases |vs|
  {
    if |vs| == 0 then []
    else if Ends(vs[0]) then Fragment(vs[0])
    else Fragment(vs[0]) + Fragments(vs[1..])
  }

  /** Whether the first ending line is a payload flagged `is_end` (rather than a fatal one). */
  predicate SawEnd(vs: seq<Verdict>)
    decreases |vs|
  {
    |vs| > 0 && (if Ends(vs[0]) then vs[0].Payload? else SawEnd(vs[1..]))
  }

  /** One content event per fragment. */
  function Contents(fs: seq<string>): (r: seq<Event>)
    ensures |r| == |fs|
  {
    if |fs| == 0 then [] else [Content(fs[0])] + Contents(fs[1..])
  }

  /** The output described independently of the state machine: one role announcement if
      any text arrives, the fragments in order, and the terminator if the upstream flagged
      the end. */
  function Expected(parse: string -> Decoded, lines: seq<string>): seq<Event> {
    var vs := Classified(parse, lines);
    var fs := Fragments(vs);
    (if |fs| > 0 then [Role] else []) + Contents(fs) + (if SawEnd(vs) then [Stop] else [])
  }
}

=== FILE: transducer_props.dfy ===
/** Properties of the line translator. */
module TransducerProps {
  import Seqs
  import opened Wrappers
  import opened Text
  import opened Chunks
  import opened Transducer

  /** After the `data:` tag test, `line.strip()` only trims the right-hand end, so the
      remainder is exactly what follows the tag in the right-trimmed line. */
  lemma RemainderOfDataLine(line: string)
    requires StartsWith(line, DataPrefix)
    ensures RStrip(line) == DataPrefix + Remainder(line)
  {
    assert line[0] == DataPrefix[0];
    StripOfNonSpaceStart(line);
    PrefixSurvivesRStrip(line, DataPrefix);
  }

  /** A data line is blank exactly when nothing but whitespace follows its tag. */
  lemma BlankIffBareTag(parse: string -> Decoded, line: string)
    ensures Classify(parse, line) == Blank <==> StartsWith(line, DataPrefix) && RStrip(line) == DataPrefix
  {
    if StartsWith(line, DataPrefix) {
      var r := Remainder(line);
      assert Classify(parse, line) == Blank <==> |r| == 0;
      assert |r| == 0 <==> RStrip(line) == DataPrefix by {
        RemainderOfDataLine(line);
        Seqs.EmptyTail(DataPrefix, r, RStrip(line));
      }
    }
  }

  /** Classifying a concatenation classifies each part. */
  lemma {:induction false} ClassifiedAppend(parse: string -> Decoded, a: seq<string>, b: seq<string>)
    ensures Classified(parse, a + b) == Classified(parse, a) + Classified(parse, b)
    decreases |a|
  {
    if |a| == 0 {
      assert a + b == b;
    } else {
      assert (a + b)[0] == a[0];
      assert (a + b)[1..] == a[1..] + b;
      ClassifiedAppend(parse, a[1..], b);
    }
  }

  lemma ClassifiedOne(parse: string -> Decoded, line: string)
    ensures Classified(parse, [line]) == [Classify(parse, line)]
  {
    assert [line][1..] == [];
  }

  /** The fold over a concatenation is the fold over the second part from the state the
      first part leaves. */
  lemma {:induction false} RunAppend(st: State, a: seq<Verdict>, b: seq<Verdict>)
    ensures Run(st, a + b) == (Run(Run(st, a).0, b).0, Run(st, a).1 + Run(Run(st, a).0, b).1)
    decreases |a|
  {
    if |a| == 0 {
      assert a + b == b;
      var r := Run(st, b);
      assert [] + r.1 == r.1;
    } else if !st.stopped {
      var step := Step(st, a[0]);
      var mid := Run(step.0, a[1..]);
      var last := Run(mid.0, b);
      assert Run(st, a + b) == (Run(step.0, a[1..] + b).0, step.1 + Run(step.0, a[1..] + b).1) by {
        Seqs.ConsConcat(a, b);
      }
      assert Run(step.0, a[1..] + b) == (last.0, mid.1 + last.1) by {
        RunAppend(step.0, a[1..], b);
      }
      assert Run(st, a) == (mid.0, step.1 + mid.1);
      assert step.1 + (mid.1 + last.1) == (step.1 + mid.1) + last.1;
    } else {
      assert Run(st, a) == (st, []);
      assert Run(st, b) == (st, []);
      assert Run(st, a + b) == (st, []);
      var none: seq<Event> := [];
      assert none + none == none;
    }
  }

  /** A skipped verdict leaves the fold unchanged. */
  lemma RunSkips(st: State, v: Verdict, rest: seq<Verdict>)
    requires Skipped(v)
    ensures Run(st, [v] + rest) == Run(st, rest)
  {
    if !st.stopped {
      assert ([v] + rest)[0] == v;
      assert ([v] + rest)[1..] == rest;
      assert Step(st, v) == (st, []);
      var r := Run(st, rest);
      assert Run(st, [v] + rest) == (r.0, [] + r.1);
      assert [] + r.1 == r.1;
    }
  }

  /** A skipped line (no tag, empty remainder, not JSON, no `content`) can be removed from
      anywhere in the upstream without changing the output: in particular a malformed line
      never ends the stream, and the lines after it are translated as if it were absent. */
  lemma SkippedLineIsInvisible(parse: string -> Decoded, pre: seq<string>, line: string, post: seq<string>)
    requires Skipped(Classify(parse, line))
    ensures Translate(parse, pre + [line] + post) == Translate(parse, pre + post)
  {
    var p := Classified(parse, pre);
    var q := Classified(parse, post);
    var v := Classify(parse, line);
    assert Classified(parse, pre + [line] + post) == p + ([v] + q) by {
      ClassifiedAppend(parse, pre + [line], post);
      ClassifiedAppend(parse, pre, [line]);
      ClassifiedOne(parse, line);
    }
    assert Classified(parse, pre + post) == p + q by {
      ClassifiedAppend(parse, pre, post);
    }
    RunAppend(Initial, p, [v] + q);
    RunAppend(Initial, p, q);
    RunSkips(Run(Initial, p).0, v, q);
  }

  /** Once the fold has stopped, nothing more is read. */
  lemma StoppedIgnoresRest(st: State, a: seq<Verdict>, b: seq<Verdict>)
    requires Run(st, a).0.stopped
    ensures Run(st, a + b) == Run(st, a)
  {
    RunAppend(st, a, b);
    var s := Run(st, a).0;
    assert Run(s, b) == (s, []);
    assert Run(st, a).1 + [] == Run(st, a).1;
  }

  /** A verdict that ends the loop leaves the fold stopped, whatever came before. */
  lemma RunEndsAt(st: State, p: seq<Verdict>, v: Verdict)
    requires Ends(v)
    ensures Run(st, p + [v]).0.stopped
  {
    RunAppend(st, p, [v]);
    var s := Run(st, p).0;
    if !s.stopped {
      assert [v][0] == v && [v][1..] == [];
      assert Step(s, v).0.stopped;
    }
  }

  /** A line flagged `is_end` with content present, or a non-object payload, ends the read
      loop: the lines after it never influence the output. */
  lemma EndingLineStopsReading(parse: string -> Decoded, pre: seq<string>, line: string, post: seq<string>)
    requires Ends(Classify(parse, line))
    ensures Translate(parse, pre + [line] + post) == Translate(parse, pre + [line])
  {
    var a := Classified(parse, pre + [line]);
    ClassifiedAppend(parse, pre + [line], post);
    ClassifiedAppend(parse, pre, [line]);
    ClassifiedOne(parse, line);
    assert a == Classified(parse, pre) + [Classify(parse, line)];
    RunEndsAt(Initial, Classified(parse, pre), Classify(parse, line));
    StoppedIgnoresRest(Initial, a, Classified(parse, post));
  }

  /** The reference output from a not-yet-stopped state; `first` says whether the role
      announcement is still owed. */
  function Shape(first: bool, vs: seq<Verdict>): seq<Event> {
    var fs := Fragments(vs);
    (if first && |fs| > 0 then [Role] else []) + Contents(fs) + (if SawEnd(vs) then [Stop] else [])
  }

  /** One fold step on a non-empty sequence from a running state. */
  lemma RunUnfold(st: State, vs: seq<Verdict>)
    requires |vs| > 0 && !st.stopped
    ensures Run(st, vs).1 == Step(st, vs[0]).1 + Run(Step(st, vs[0]).0, vs[1..]).1
  {
  }

  lemma ShapeSkipped(first: bool, vs: seq<Verdict>)
    requires |vs| > 0 && Skipped(vs[0])
    requires Run(State(first, false), vs[1..]).1 == Shape(first, vs[1..])
    ensures Run(State(first, false), vs).1 == Shape(first, vs)
  {
    var st := State(first, false);
    var rest := vs[1..];
    assert Run(st, vs).1 == Run(st, rest).1 by {
      RunUnfold(st, vs);
      assert Step(st, vs[0]) == (st, []);
      assert [] + Run(st, rest).1 == Run(st, rest).1;
    }
    assert Shape(first, vs) == Shape(first, rest) by {
      assert Fragment(vs[0]) == [];
      assert Fragments(vs) == [] + Fragments(rest);
      assert [] + Fragments(rest) == Fragments(rest);
      assert SawEnd(vs) == SawEnd(rest);
    }
  }

  lemma ShapeEnding(first: bool, vs: seq<Verdict>)
    requires |vs| > 0 && Ends(vs[0])
    ensures Run(State(first, false), vs).1 == Shape(first, vs)
  {
    var st := State(first, false);
    RunUnfold(st, vs);
    var step := Step(st, vs[0]);
    assert step.0.stopped;
    assert Run(step.0, vs[1..]).1 == [];
    assert Fragments(vs) == Fragment(vs[0]);
    if vs[0].Payload? {
      var c := vs[0].content;
      if |c| > 0 {
        assert Contents([c]) == [Content(c)];
      } else {
        assert Contents([]) == [];
      }
    }
  }

  lemma ShapeContinuing(first: bool, vs: seq<Verdict>)
    requires |vs| > 0 && vs[0].Payload? && !vs[0].isEnd
    requires var c := vs[0].content;
      Run(State(first && |c| == 0, false), vs[1..]).1 == Shape(first && |c| == 0, vs[1..])
    ensures Run(State(first, false), vs).1 == Shape(first, vs)
  {
    var st := State(first, false);
    var c := vs[0].content;
    var rest := vs[1..];
    var fs' := Fragments(rest);
    var stop := if SawEnd(rest) then [Stop] else [];
    var step := Step(st, vs[0]);
    RunUnfold(st, vs);
    assert SawEnd(vs) == SawEnd(rest);
    if |c| > 0 {
      var role := if first then [Role] else [];
      assert step == (State(false, false), role + [Content(c)] + []);
      assert Run(st, vs).1 == (role + [Content(c)]) + (Contents(fs') + stop) by {
        assert Shape(false, rest) == [] + Contents(fs') + stop;
        assert [] + Contents(fs') == Contents(fs');
        assert role + [Content(c)] + [] == role + [Content(c)];
      }
      assert Fragments(vs) == [c] + fs';
      assert Contents([c] + fs') == [Content(c)] + Contents(fs') by {
        assert ([c] + fs')[1..] == fs';
      }
      assert Shape(first, vs) == role + ([Content(c)] + Contents(fs')) + stop;
      Seqs.Assoc3(role, [Content(c)], Contents(fs'), stop);
    } else {
      assert step == (st, []);
      assert [] + Run(st, rest).1 == Run(st, rest).1;
      assert Fragments(vs) == [] + fs';
      assert [] + fs' == fs';
      assert Shape(first, vs) == Shape(first, rest);
    }
  }

  /** The state machine produces the reference output from any not-yet-stopped state. */
  lemma {:induction false} RunShape(first: bool, vs: seq<Verdict>)
    ensures Run(State(first, false), vs).1 == Shape(first, vs)
    decreases |vs|
  {
    if |vs| > 0 {
      var v := vs[0];
      if Ends(v) {
        ShapeEnding(first, vs);
      } else if v.Payload? {
        RunShape(first && |v.content| == 0, vs[1..]);
        ShapeContinuing(first, vs);
      } else {
        RunShape(first, vs[1..]);
        ShapeSkipped(first, vs);
      }
    }
  }

  /** The translator's output is the reference output. */
  lemma TranslateIsExpected(parse: string -> Decoded, lines: seq<string>)
    ensures Translate(parse, lines) == Expected(parse, lines)
  {
    RunShape(true, Classified(parse, lines));
  }

  lemma {:induction false} FragmentsNonEmpty(vs: seq<Verdict>)
    ensures forall i :: 0 <= i < |Fragments(vs)| ==> |Fragments(vs)[i]| > 0
    decreases |vs|
  {
    if |vs| > 0 {
      FragmentsNonEmpty(vs[1..]);
    }
  }

  lemma {:induction false} ContentsAt(fs: seq<string>)
    ensures forall i :: 0 <= i < |fs| ==> Contents(fs)[i] == Content(fs[i])
    decreases |fs|
  {
    if |fs| > 0 {
      ContentsAt(fs[1..]);
    }
  }

  /** The ordering guarantees of a translated stream: the role announcement comes at most
      once and first, every content chunk follows it and carries non-empty text, and the
      terminator, if any, is the last event. */
  lemma TranslateOrdering(parse: string -> Decoded, lines: seq<string>)
    ensures var evs := Translate(parse, lines);
      && (forall i :: 0 <= i < |evs| && evs[i] == Role ==> i == 0)
      && (forall i :: 0 <= i < |evs| && evs[i].Content? ==> 0 < i && evs[0] == Role && |evs[i].text| > 0)
      && (forall i :: 0 <= i < |evs| && evs[i] == Stop ==> i == |evs| - 1)
  {
    var vs := Classified(parse, lines);
    var fs := Fragments(vs);
    TranslateIsExpected(parse, lines);
    FragmentsNonEmpty(vs);
    ContentsAt(fs);
    var r := if |fs| > 0 then [Role] else [];
    var c := Contents(fs);
    var s := if SawEnd(vs) then [Stop] else [];
    var evs := Translate(parse, lines);
    assert evs == r + c + s;
    forall i | 0 <= i < |evs|
      ensures evs[i] == Role ==> i == 0
      ensures evs[i].Content? ==> 0 < i && evs[0] == Role && |evs[i].text| > 0
      ensures evs[i] == Stop ==> i == |evs| - 1
    {
      if i < |r| {
        assert evs[i] == Role;
      } else if i < |r| + |c| {
        assert evs[i] == c[i - |r|] == Content(fs[i - |r|]);
        assert evs[0] == Role;
      } else {
        assert evs[i] == s[i - |r| - |c|];
      }
    }
  }

  /** A payload carrying both text and the end flag yields its content chunk and then the
      terminator, and nothing after them. */
  lemma ContentThenStop(st: State, c: string, rest: seq<Verdict>)
    requires !st.stopped && |c| > 0
    ensures var out := Run(st, [Payload(c, true)] + rest).1;
      |out| >= 2 && out[|out| - 2..] == [Content(c), Stop]
  {
    assert ([Payload(c, true)] + rest)[0] == Payload(c, true);
  }

  /** A payload with empty text and the end flag yields the terminator alone, and nothing
      after it. */
  lemma EmptyEndStopsOnly(st: State, rest: seq<Verdict>)
    requires !st.stopped
    ensures Run(st, [Payload("", true)] + rest).1 == [Stop]
  {
    var vs := [Payload("", true)] + rest;
    var none: seq<Event> := [];
    assert vs[0] == Payload("", true);
    assert none + none + [Stop] == [Stop];
    assert Step(st, vs[0]).0.stopped;
  }

  /** A payload without `content` produces nothing, whether or not it is flagged `is_end`:
      the stream goes on as if the line had never been sent. */
  lemma MissingContentIsIgnored(parse: string -> Decoded, pre: seq<string>, line: string, post: seq<string>)
    requires StartsWith(line, DataPrefix) && |Remainder(line)| > 0
    requires parse(Remainder(line)).Obj? && parse(Remainder(line)).content.None?
    ensures Translate(parse, pre + [line] + post) == Translate(parse, pre + post)
  {
    SkippedLineIsInvisible(parse, pre, line, post);
  }

  /** A tagged line whose remainder is not JSON is logged and skipped: the output is the
      same as if the line had never been sent. */
  lemma MalformedLineIsInvisible(parse: string -> Decoded, pre: seq<string>, line: string, post: seq<string>)
    requires StartsWith(line, DataPrefix) && |Remainder(line)| > 0
    requires parse(Remainder(line)) == NotJson
    ensures Translate(parse, pre + [line] + post) == Translate(parse, pre + post)
  {
    SkippedLineIsInvisible(parse, pre, line, post);
  }

  /** A tagged line whose remainder is JSON but not an object with an object `data` ends
      the stream at once: nothing from it or from any later line is emitted, not even the
      terminator. */
  lemma NonObjectEndsStream(parse: string -> Decoded, pre: seq<string>, line: string, post: seq<string>)
    requires StartsWith(line, DataPrefix) && |Remainder(line)| > 0
    requires parse(Remainder(line)) == NotObject
    ensures Translate(parse, pre + [line] + post) == Translate(parse, pre)
  {
    assert Classify(parse, line) == Fatal;
    EndingLineStopsReading(parse, pre, line, post);
    var p := Classified(parse, pre);
    assert Classified(parse, pre + [line]) == p + [Fatal] by {
      ClassifiedAppend(parse, pre, [line]);
      ClassifiedOne(parse, line);
    }
    RunAppend(Initial, p, [Fatal]);
    var mid := Run(Initial, p).0;
    assert Run(mid, [Fatal]).1 == [];
    assert Run(Initial, p).1 + [] == Run(Initial, p).1;
  }

  /** For a data line that does not end in whitespace, the remainder is everything after
      the tag. */
  lemma RemainderOfTrimmedLine(line: string)
    requires StartsWith(line, DataPrefix) && !IsSpace(line[|line| - 1])
    ensures Remainder(line) == line[|DataPrefix|..]
  {
    RemainderOfDataLine(line);
    RStripKeeps(line, |line| - 1);
    assert RStrip(line) == line;
    Seqs.ConcatSlices(DataPrefix, Remainder(line));
  }

  /** The two JSON documents of the scenario below, as they follow the `data:` tag. */
  const FirstJson := " {\"data\": {\"content\": \"Hi\", \"is_end\": 0}}"
  const LastJson := " {\"data\": {\"content\": \" there\", \"is_end\": 1}}"

  lemma TaggedPayload(parse: string -> Decoded, json: string, c: string, e: bool)
    requires |json| > 0 && json[|json| - 1] == '}'
    requires parse(json) == Obj(Some(c), e)
    ensures Classify(parse, DataPrefix + json) == Payload(c, e)
  {
    var line := DataPrefix + json;
    Seqs.ConcatSlices(DataPrefix, json);
    assert line[|line| - 1] == '}';
    RemainderOfTrimmedLine(line);
  }

  /** Two lines tagged `data:` carrying payload JSON are classified as their payloads. */
  lemma ClassifiedPair(parse: string -> Decoded, j1: string, j2: string, v1: Verdict, v2: Verdict)
    requires |j1| > 0 && j1[|j1| - 1] == '}' && |j2| > 0 && j2[|j2| - 1] == '}'
    requires v1.Payload? && parse(j1) == Obj(Some(v1.content), v1.isEnd)
    requires v2.Payload? && parse(j2) == Obj(Some(v2.content), v2.isEnd)
    ensures Classified(parse, [DataPrefix + j1, DataPrefix + j2]) == [v1, v2]
  {
    var l1 := DataPrefix + j1;
    var l2 := DataPrefix + j2;
    assert Classify(parse, l1) == v1 by { TaggedPayload(parse, j1, v1.content, v1.isEnd); }
    assert Classify(parse, l2) == v2 by { TaggedPayload(parse, j2, v2.content, v2.isEnd); }
    ClassifiedAppend(parse, [l1], [l2]);
    ClassifiedOne(parse, l1);
    ClassifiedOne(parse, l2);
    assert [l1, l2] == [l1] + [l2];
  }

  /** A payload with text followed by a final one with text. */
  lemma RunPair(c1: string, c2: string)
    requires |c1| > 0 && |c2| > 0
    ensures Run(Initial, [Payload(c1, false), Payload(c2, true)]).1 == [Role, Content(c1), Content(c2), Stop]
  {
    var vs := [Payload(c1, false), Payload(c2, true)];
    var s1 := State(false, false);
    var none: seq<Event> := [];
    assert [Role] + [Content(c1)] + none == [Role, Content(c1)];
    assert none + [Content(c2)] + [Stop] == [Content(c2), Stop];
    assert Step(Initial, vs[0]) == (s1, [Role, Content(c1)]);
    assert Step(s1, vs[1]) == (State(false, true), [Content(c2), Stop]);
    assert vs[1..] == [Payload(c2, true)];
    assert vs[1..][1..] == [];
    assert Run(State(false, true), []) == (State(false, true), []);
    assert Run(s1, vs[1..]).1 == [Content(c2), Stop];
  }

  /** Two payloads with text, the second flagged as the end: a role announcement, both
      fragments in order, then the terminator. */
  lemma TwoPayloads(parse: string -> Decoded, j1: string, j2: string, c1: string, c2: string)
    requires |j1| > 0 && j1[|j1| - 1] == '}' && |j2| > 0 && j2[|j2| - 1] == '}'
    requires |c1| > 0 && |c2| > 0
    requires parse(j1) == Obj(Some(c1), false)
    requires parse(j2) == Obj(Some(c2), true)
    ensures Translate(parse, [DataPrefix + j1, DataPrefix + j2]) == [Role, Content(c1), Content(c2), Stop]
  {
    ClassifiedPair(parse, j1, j2, Payload(c1, false), Payload(c2, true));
    RunPair(c1, c2);
  }

  /** The same for a concrete pair of upstream lines. */
  lemma TwoPayloadScenario(parse: string -> Decoded)
    requires parse(FirstJson) == Obj(Some("Hi"), false)
    requires parse(LastJson) == Obj(Some(" there"), true)
    ensures Translate(parse, [DataPrefix + FirstJson, DataPrefix + LastJson])
      == [Role, Content("Hi"), Content(" there"), Stop]
  {
    TwoPayloads(parse, FirstJson, LastJson, "Hi", " there");
  }
}

=== FILE: wrappers.dfy ===
/** Failure-carrying datatypes shared by the rest of the model. */
module Wrappers {

  /** A value that may be absent: a missing dictionary key, a `None`. */
  datatype Option<+T> = None | Some(value: T) {
    /** The value if present, otherwise `default` (Python's `dict.get(key, default)`). */
    function GetOr(default: T): T {
      match this
      case Some(v) => v
      case None => default
    }
  }

  /** The outcome of an operation that can raise. */
  datatype Result<+R, +E> = Ok(value: R) | Err(error: E)
}
